=== FILE: README.md ===
# mongoose_record_replay in Dafny

A model of the record/replay shim for Mongoose in `src/mgrecrep.ts`. In
"RECORD" mode the shim wraps a model's `find`, `distinct` and `aggregate`
so that every result is written to disk under the md5 digest of
operation + model name + serialised query. In "REPLAY" mode it hands out a
mock client whose models read those files back. The model covers the four
deterministic pieces of the shim:

- `json.dfy`, `regex_codec.dfy`: the value tree that JSON.stringify and
  JSON.parse see, and the RegExp-aware replacer (`customSer`) and reviver
  (`customDeSer`) of `JSONStringify` / `JSONParse`, as tree transforms. The
  reviver's `toString`, `split` and `match` steps are written out, and so is
  the greedy pattern `/\/(.*)\/(.*)?/`.
- `store.dfy`: `recordOp`, `retrieveOp` and `makeFileName` over a file system
  held as a map from path to file content, in a `Store` class. md5 is the
  store's `digestOf` function, about which nothing is assumed.
- `modes.dfy`: `instrumentMongoose`'s choice of mode and recording path, the
  globals `theMode` and `recordingPath` (class `Shim`), `instrumentModel`,
  and the argument rules of the patched read methods.
- `mock.dfy`: the mock client's model registry (`model`, `modelNames`).
- `dict.dfy`: a plain JavaScript object used as a dictionary (ordered keys,
  overwrite in place, append when new). Both the index file and the registry
  use it. `wrappers.dfy` holds Option and Result.

Behaviours of the code a caller may not expect:
- `JSONParse` fails on any `null` in the value, because the reviver calls `value.toString()` on every value.
- An object with a "toString" key also fails, because that key hides the method.
- A string that starts with "__REGEXP " is turned into a RegExp even if it never was one.
- A revived RegExp lists its flags in the fixed order "dgimsuvy", so "__REGEXP /a/ig" becomes /a/gi.
- Replayed results are read with plain `JSON.parse`, and the data files are written with plain `JSON.stringify`. A RegExp inside a recorded result therefore comes back as `{}`.
- An index file that holds an array silently loses the new entry.
- An index file that holds `null` or another primitive makes `recordOp` throw. The module is compiled in strict mode, so assigning a property to a primitive throws.

## Model

| member | source | states |
|---|---|---|
| Dict.LookupPut | src/mgrecrep.ts:112-118 | after `known[digest] = entry`, the digest yields the entry and every other key yields what it did before |
| Dict.PutKeys | src/mgrecrep.ts:271-273 | writing an existing key keeps the key order; a new key is appended |
| Dict.LookupIffKey | src/mgrecrep.ts:277-278 | a name yields a value exactly when it is among `Object.keys` |
| Dict.PutDistinct | src/mgrecrep.ts:281-288 | writing into an object never duplicates a key |
| JsonValue.Plain | src/mgrecrep.ts:104 | plain JSON.stringify leaves no RegExp in what is stored |
| JsonValue.PlainKeepsRegexFree | src/mgrecrep.ts:104 | a result without RegExp is stored unchanged |
| JsonValue.ToStrUnderscore | src/mgrecrep.ts:32 | `value.toString()`: only a string or an array (joined by `Array.prototype.toString`) can give text that starts with '_', so only those can pass the `indexOf("__REGEXP ") == 0` test |
| JsonValue.Join | src/mgrecrep.ts:32 | `Array.prototype.toString` puts a ',' between every two elements, so the text has at least as many characters as the array has separators (one fewer than its elements) |
| JsonValue.JoinExample | src/mgrecrep.ts:32 | `[null, 12, ["a", null]]` prints ",12,a,": a null element prints as nothing and nested arrays join into the same list |
| JsonValue.Render | src/mgrecrep.ts:51 | the text `JSON.stringify(obj, customSer, 2)` writes is never empty |
| JsonValue.RenderFirst | src/mgrecrep.ts:51 | that text starts with "n", "t", "f", a minus sign, a digit, a quote or a bracket |
| JsonValue.RenderExample | src/mgrecrep.ts:51 | `{a: 1}` prints with a two-space gap and ": " after the key, as "{\n  \"a\": 1\n}" |
| JsonValue.RenderNestedArray | src/mgrecrep.ts:51 | a value one level deeper is indented two more spaces |
| JsonValue.QuoteExample | src/mgrecrep.ts:51 | a quote or a backslash inside a string is escaped with a backslash |
| RegexCodec.Encode | src/mgrecrep.ts:43-52 | a RegExp becomes exactly "__REGEXP " + "/" + source + "/" + flags; an array keeps its length and each element is encoded in place, an object keeps its keys in order and each value is encoded, so a RegExp at any depth is rewritten; a value without RegExp is unchanged; nothing encoded holds a RegExp |
| RegexCodec.Decode | src/mgrecrep.ts:30-39 | a value with a `null` anywhere fails to parse, because `null.toString()` throws |
| RegexCodec.DecodeItems | src/mgrecrep.ts:38 | array elements are revived one by one, each as Decode revives it |
| RegexCodec.DecodeMembers | src/mgrecrep.ts:38 | object members are revived in order with their keys kept, and none of them holds a `null` |
| RegexCodec.DecodeMembersValues | src/mgrecrep.ts:38 | each revived member value is what the reviver makes of the original value on its own |
| RegexCodec.UpToSentinel | src/mgrecrep.ts:33 | the part `split("__REGEXP ")` keeps is a prefix of the text |
| RegexCodec.UpToSentinelFirst | src/mgrecrep.ts:33 | that prefix holds no marker and stops at the first marker in the text, or at its end |
| RegexCodec.Segment | src/mgrecrep.ts:33 | `value.split("__REGEXP ")[1]` is a prefix of the text after the leading marker (as written), or all of that text (marker stripped) |
| RegexCodec.MatchFrom | src/mgrecrep.ts:33 | a match of `/\/(.*)\/(.*)?/` is some "/" + group 1 + "/" + group 2 found in the text from the search position on; neither group crosses a line terminator, and group 2 holds no '/'; which match it is, is stated by the lemmas below |
| RegexCodec.MatchFromNullIff | src/mgrecrep.ts:33 | `.match` gives null exactly when no '/' from the search position on has a second '/' later on its own line |
| RegexCodec.MatchFromFound | src/mgrecrep.ts:33 | a '/' with a second '/' later on its line makes `.match` succeed |
| RegexCodec.MatchFromNone | src/mgrecrep.ts:33 | with no such '/', `.match` gives null |
| RegexCodec.MatchFromFirst | src/mgrecrep.ts:33 | the match starts at the leftmost such '/': group 1 runs to the last '/' on that line and group 2 from there to the line end |
| RegexCodec.Revive | src/mgrecrep.ts:31-37 | `customDeSer` on one value: `null` and an object with a "toString" key fail; a value whose text does not start with the marker comes back unchanged; the only value that changes is a marker string, which becomes a RegExp with its flags in the fixed order |
| RegexCodec.ValidFlagsCases | src/mgrecrep.ts:34 | the flags `new RegExp` accepts are known letters, each at most once, and not both u and v: "", "gi" and "dgimsuy" pass, while "gg", "uv", "x" and "G" are rejected |
| RegexCodec.CanonicalFlagsLetters | src/mgrecrep.ts:34 | the flags a revived RegExp reports are exactly the known flag letters given in the text |
| RegexCodec.CanonicalFlagsIdempotent | src/mgrecrep.ts:34 | `new RegExp` lists its flags in the fixed order "dgimsuvy", so a revived RegExp re-encodes with the same flags |
| RegexCodec.FlagsComeBackInOrder | src/mgrecrep.ts:34 | "__REGEXP /a/ig" comes back as the RegExp /a/gi |
| RegexCodec.DecodeMarked | src/mgrecrep.ts:32-34 | "__REGEXP /source/flags" becomes the RegExp with that source and those flags in the fixed order (for the code as written, when the source holds no marker) |
| RegexCodec.MatchEncoded | src/mgrecrep.ts:33 | on "/source/flags" the greedy first group ends at the last '/', giving back source and flags |
| RegexCodec.EncodedNoSentinel | src/mgrecrep.ts:33 | "/source/flags" holds a marker only if the source does |
| RegexCodec.RegexRoundTrip | src/mgrecrep.ts:31-46 | decoding an encoded RegExp gives the same source and flags, for flags in the order a RegExp reports them (the code as written also needs a source without the marker) |
| RegexCodec.RoundTrip | src/mgrecrep.ts:30-52 | JSONParse after JSONStringify gives back every value without null, marker strings or "toString" keys, with valid RegExps whose flags are in the order a RegExp reports them |
| RegexCodec.RevivableText | src/mgrecrep.ts:32 | such a value, arrays included, never prints as a marker, so the reviver leaves it alone |
| RegexCodec.PlainValuesPassThrough | src/mgrecrep.ts:35-36 | values without RegExp that the reviver accepts come back unchanged |
| RegexCodec.SentinelStringNeverStaysString | src/mgrecrep.ts:32-34 | a string starting with "__REGEXP " never comes back as a string |
| RegexCodec.SentinelStringBecomesRegex | src/mgrecrep.ts:32-34 | the plain string "__REGEXP /ab+c/gi" comes back as the RegExp /ab+c/gi |
| RegexCodec.SentinelWithoutMatchFails | src/mgrecrep.ts:33-34 | a marker string in which no '/' after the marker has a second '/' later on its line fails: the match is null, so `m[1]` throws |
| RegexCodec.SentinelInSourceBreaksRoundTrip | src/mgrecrep.ts:33 | the RegExp with source "a__REGEXP b" does not survive JSONParse as written, but does survive the intended parse |
| RegexCodec.RegexRoundTripIntended | src/mgrecrep.ts:33-34 | stripping only the leading marker restores every RegExp with valid flags |
| RecordStore.QueryText | src/mgrecrep.ts:102 | `JSONStringify(query)` as concatenated into the key is never empty; an undefined query adds "undefined" |
| RecordStore.QueryTextUndefined | src/mgrecrep.ts:102 | the query text is "undefined" exactly when the query is undefined, so no defined query shares that key |
| RecordStore.KeyText | src/mgrecrep.ts:102 | the key text starts with the operation and the model name, and the query always adds text after them |
| RecordStore.KeyTextQueries | src/mgrecrep.ts:102 | with operation and model name fixed, two queries share a key exactly when they serialise to the same text |
| RecordStore.KeyCollision | src/mgrecrep.ts:102 | the key has no separator: name "x1" with query 2 and name "x" with query 12 give the same key |
| RecordStore.DataFile | src/mgrecrep.ts:95-97 | `makeFileName`: the file lies in the "data/" directory under the recording path and has the ".json" extension |
| RecordStore.DataFileInjective | src/mgrecrep.ts:95-97 | different digests are stored in different data files |
| RecordStore.IndexFile | src/mgrecrep.ts:108 | `recordingPath + 'queries.json'` lies under the recording path and ends in ".json" |
| RecordStore.IndexIsNoDataFile | src/mgrecrep.ts:104-108 | the index file is never a data file |
| RecordStore.Entry | src/mgrecrep.ts:112-118 | the entry is an object with five members when there is a query and four when the query is undefined |
| RecordStore.EntryFields | src/mgrecrep.ts:112-118 | its keys are "op", "name", "digest", "query" (only for a defined query) and "res", in that order; it maps the digest, the query (absent when undefined) and the result |
| RecordStore.EncodePut | src/mgrecrep.ts:112-119 | encoding the rewritten index encodes only the new entry |
| RecordStore.Store.constructor | src/mgrecrep.ts:17 | a store over a given file system and digest function |
| RecordStore.Store.Record | src/mgrecrep.ts:99-120 | the result is written to its data file first. A missing index becomes a one-entry index. An object index gets the entry set for the digest. An array index loses the entry. A null or primitive index throws. A malformed index exits. No other file changes. |
| RecordStore.Store.Retrieve | src/mgrecrep.ts:122-140 | the data file for the digest is read and returned; a missing file is an error naming that file, and a malformed one ends the process (`Corrupt`) |
| RecordStore.ReplayReturnsRecorded | src/mgrecrep.ts:99-140 | replaying the same operation, name and query after recording returns the recorded result, exactly when it holds no RegExp |
| Modes.PathWith | src/mgrecrep.ts:251 | the path is the explicit path, else the environment path, else the fallback, and never empty |
| Modes.SelectWith | src/mgrecrep.ts:244-266 | an explicit mode other than "REPLAY"/"RECORD" fails; otherwise the effective mode decides record, replay or neither |
| Modes.Select | src/mgrecrep.ts:245-249 | an absent or empty mode never fails; an unrecognised environment value leaves the client untouched |
| Modes.DefaultPathFilesOutsideDirectory | src/mgrecrep.ts:251 | with no path given, the index and data files land beside "mongoose_record_replay", not in it |
| Modes.IntendedDefaultKeepsFilesInside | src/mgrecrep.ts:25 | with the fallback "mongoose_record_replay/", every file lies inside the directory |
| Modes.Shim.constructor | src/mgrecrep.ts:25-28 | theMode starts undefined and recordingPath starts as "mongoose_record_replay/" |
| Modes.Shim.InstrumentMongoose | src/mgrecrep.ts:244-266 | theMode is assigned before the check, even a rejected value; recordingPath changes only in the two modes; the result is the selection |
| Modes.ModePatches | src/mgrecrep.ts:84-92 | record mode installs the recording wrappers, replay mode the replaying ones, any other mode nothing |
| Modes.InstrumentModel | src/mgrecrep.ts:84-92 | the model is patched in place for the current mode and returned |
| Modes.DefineRecorded | src/mgrecrep.ts:253-259 | in record mode, only a definition (more than one argument) is instrumented |
| Modes.ModelObj.constructor | src/mgrecrep.ts:281-287 | a model with its name, its schema and no wrappers |
| Modes.RecordQuery | src/mgrecrep.ts:142-186 | recording find/distinct throw unless given exactly one argument; aggregate keys on the whole argument list |
| Modes.ReplayQuery | src/mgrecrep.ts:188-233 | replaying find/distinct key on the first argument (`undefined` if none); aggregate on the whole list |
| Modes.ReplayKeysLikeRecord | src/mgrecrep.ts:151-194 | a replayed call with the same first argument (find, distinct) or argument list (aggregate) keys on the recorded query |
| Mock.MongooseMock.constructor | src/mgrecrep.ts:270 | the registry starts empty |
| Mock.MongooseMock.Model | src/mgrecrep.ts:276-289 | without a schema: the registered model or undefined, nothing changes; with one: a fresh instrumented model replaces that name only |
| Mock.MongooseMock.ModelNames | src/mgrecrep.ts:271-273 | exactly the registered names, each once |
| Mock.DefineThenLookup | src/mgrecrep.ts:276-289 | looking a name up after defining it gives the same model object |

## Left out

- File I/O: `readFileSync`, `writeFileSync`, `mkdirSync` and `assurePath` become updates of the map of files. Directory creation is not modelled, and writes always succeed.
- md5: `digestOf` is an arbitrary function of the key text, so collisions are neither excluded nor assumed. The array-index branch of `Store.Record` drops the entry for every digest. JavaScript does that only for a property name that is neither an array index nor "length": `known["0"] = …` would overwrite element 0, and `known["length"] = …` throws. A real md5 hex digest has 32 characters from "0123456789abcdef", so it is never such a name, and the model assumes no digest is.
- JSON text: files hold the tree `JSON.parse` would build from them. Text is rendered only for the key (`Render`, indentation 2), and parsing text is not modelled.
- Numbers are integers. Floating point, exponent notation, NaN and Infinity are not modelled.
- `undefined` inside values and `toJSON` (for example on Date) are not modelled. A query that is `undefined` as a whole is modelled (`None`): its key text is "undefined" and its index entry has no "query" member. An `undefined` argument to a patched call is not modelled.
- The RegExp constructor's check of the pattern syntax is not modelled, and neither is its normalisation of `source`. Only the flags are checked, against the current set "dgimsuvy", and put in that order as `RegExp.prototype.flags` does.
- Objects: integer-like keys, which JavaScript lists first, are not modelled. Names inherited from `Object.prototype` are not modelled either: `model("toString")` returns a function in the code.
- Promises and `setTimeout` are not modelled. Recording is fire-and-forget in the code, and here it is a synchronous `Record` after the call.
- The replay wrappers' result shapes (`lean().exec()`, a promise, the `exec` alias) are left out; `Retrieve` returns the value.
- A recording `find`/`distinct` issues the real query before checking the argument count. That real query and the live mongoose objects are not modelled.
- The monkey-patching itself is reduced to the list of wrappers a model carries (`ModelObj.patches`).
- Concurrency is not modelled: concurrent read-modify-writes of the index can lose updates.
- `connect`, `disconnect`, the `connection` EventEmitter and its "open" event are left out, because they are asynchronous. `_once` is never set in the code.
- `Schema` pass-through, `debuglog` and `console.log` output are left out. This includes `retrieveOp`'s log of an empty result and its log of a missing recording; the error value names the file instead.
- js/mgrecrep.d.ts is not part of this model; it only declares types.

## Findings

| source | as written | input that shows it | evidently intended | confidence | as-written member | corrected member |
|---|---|---|---|---|---|---|
| src/mgrecrep.ts:33 | `value.split("__REGEXP ")[1]` keeps only the text up to a second marker | a RegExp whose source contains "__REGEXP ", such as source `a__REGEXP b`: its encoding is cut to "/a", the match is null and JSONParse throws | drop only the leading marker, for example `value.substring(9)` | high, not executed | RegexCodec.SentinelInSourceBreaksRoundTrip | RegexCodec.RegexRoundTripIntended |
| src/mgrecrep.ts:251 | the fallback path "mongoose_record_replay" has no trailing '/', unlike the initial value on line 25 | mode "RECORD" with no path and no MONGO_RECORD_REPLAY_PATH: the index is "mongoose_record_replayqueries.json" and data goes to "mongoose_record_replaydata/" | fallback "mongoose_record_replay/" | medium, not executed | Modes.DefaultPathFilesOutsideDirectory | Modes.IntendedDefaultKeepsFilesInside |

=== FILE: dict.dfy ===
/**
  A plain JavaScript object used as a dictionary: string keys kept in
  insertion order. `d[k] = v` overwrites an existing key in place and
  appends a new one; `d[k]` yields the value or `undefined`.
  (Keys that look like array indices, which JavaScript enumerates first,
  are not modelled.)
*/
module Dict {
  import opened Wrappers

  type Dict<V> = seq<(string, V)>

  /** `Object.keys(d)`. */
  function Keys<V>(d: Dict<V>): seq<string>
  {
    seq(|d|, i requires 0 <= i < |d| => d[i].0)
  }

  /** `d[k]`: the value stored under `k`, or None for `undefined`. */
  function Lookup<V>(d: Dict<V>, k: string): Option<V>
  {
    if d == [] then None
    else if d[0].0 == k then Some(d[0].1)
    else Lookup(d[1..], k)
  }

  /** `d[k] = v`. */
  function Put<V>(d: Dict<V>, k: string, v: V): Dict<V>
  {
    if d == [] then [(k, v)]
    else if d[0].0 == k then [(k, v)] + d[1..]
    else [d[0]] + Put(d[1..], k, v)
  }

  /** No key occurs twice (true of every object JavaScript builds). */
  ghost predicate Distinct<V>(d: Dict<V>)
  {
    forall i, j :: 0 <= i < j < |d| ==> d[i].0 != d[j].0
  }

  /** A key has a value exactly when it is among the keys. */
  lemma {:induction false} LookupIffKey<V>(d: Dict<V>, k: string)
    ensures Lookup(d, k).Some? <==> k in Keys(d)
  {
    if d != [] {
      LookupIffKey(d[1..], k);
      assert Keys(d) == [d[0].0] + Keys(d[1..]);
    }
  }

  /** A lookup yields the value of the first entry with that key. */
  lemma {:induction false} LookupFirst<V>(d: Dict<V>, k: string, i: nat)
    requires i < |d| && d[i].0 == k
    requires forall j :: 0 <= j < i ==> d[j].0 != k
    ensures Lookup(d, k) == Some(d[i].1)
  {
    if i > 0 {
      LookupFirst(d[1..], k, i - 1);
    }
  }

  /** Writing `k` makes `k` yield `v` and leaves every other key as it was. */
  lemma {:induction false} LookupPut<V>(d: Dict<V>, k: string, v: V, q: string)
    ensures Lookup(Put(d, k, v), q) == if q == k then Some(v) else Lookup(d, q)
  {
    if d != [] && d[0].0 != k {
      LookupPut(d[1..], k, v, q);
    }
  }

  /** Overwriting keeps the key order; a new key goes to the end. */
  lemma {:induction false} PutKeys<V>(d: Dict<V>, k: string, v: V)
    ensures Keys(Put(d, k, v)) == if k in Keys(d) then Keys(d) else Keys(d) + [k]
  {
    if d != [] {
      KeysCons(d[0], d[1..]);
      assert d == [d[0]] + d[1..];
      if d[0].0 == k {
        KeysCons((k, v), d[1..]);
      } else {
        PutKeys(d[1..], k, v);
        KeysCons(d[0], Put(d[1..], k, v));
      }
    }
  }

  lemma KeysCons<V>(e: (string, V), d: Dict<V>)
    ensures Keys([e] + d) == [e.0] + Keys(d)
  {
  }

  /** Writing into an object keeps its keys distinct. */
  lemma PutDistinct<V>(d: Dict<V>, k: string, v: V)
    requires Distinct(d)
    ensures Distinct(Put(d, k, v))
  {
    PutKeys(d, k, v);
    var r := Put(d, k, v);
    forall i, j | 0 <= i < j < |r| ensures r[i].0 != r[j].0 {
      assert Keys(r)[i] == r[i].0 && Keys(r)[j] == r[j].0;
      if k !in Keys(d) && j == |d| {
        assert Keys(d)[i] == d[i].0;
      } else {
        assert Keys(d)[i] == d[i].0 && Keys(d)[j] == d[j].0;
      }
    }
  }
}

=== FILE: json.dfy ===
/**
  JavaScript values as they pass through JSON.stringify / JSON.parse:
  the JSON value tree plus RegExp objects. Numbers are integers here.
*/
module JsonValue {
  import opened Dict

  datatype Json =
    | Null
    | Bool(b: bool)
    | Num(n: int)
    | Str(s: string)
    | Arr(items: seq<Json>)
    | Obj(members: seq<(string, Json)>)
    | Regex(source: string, flags: string)

  /** No RegExp anywhere in the tree (true of everything JSON.parse returns). */
  predicate RegexFree(j: Json)
  {
    match j
    case Regex(_, _) => false
    case Arr(xs) => forall i :: 0 <= i < |xs| ==> RegexFree(xs[i])
    case Obj(ms) => forall i :: 0 <= i < |ms| ==> RegexFree(ms[i].1)
    case _ => true
  }

  /** A `null` somewhere in the tree. */
  predicate HasNull(j: Json)
  {
    match j
    case Null => true
    case Arr(xs) => exists i :: 0 <= i < |xs| && HasNull(xs[i])
    case Obj(ms) => exists i :: 0 <= i < |ms| && HasNull(ms[i].1)
    case _ => false
  }

  /**
    What plain `JSON.stringify` followed by `JSON.parse` gives back:
    a RegExp has no enumerable own property, so it becomes `{}`.
  */
  function Plain(j: Json): (r: Json)
    ensures RegexFree(r)
  {
    match j
    case Regex(_, _) => Obj([])
    case Arr(xs) => Arr(seq(|xs|, i requires 0 <= i < |xs| => Plain(xs[i])))
    case Obj(ms) => Obj(seq(|ms|, i requires 0 <= i < |ms| => (ms[i].0, Plain(ms[i].1))))
    case _ => j
  }

  /** A result without RegExp values survives plain serialisation unchanged. */
  lemma {:induction false} PlainKeepsRegexFree(j: Json)
    requires RegexFree(j)
    ensures Plain(j) == j
  {
    match j
    case Arr(xs) =>
      forall i | 0 <= i < |xs| ensures Plain(xs[i]) == xs[i] {
        PlainKeepsRegexFree(xs[i]);
      }
    case Obj(ms) =>
      forall i | 0 <= i < |ms| ensures (ms[i].0, Plain(ms[i].1)) == ms[i] {
        PlainKeepsRegexFree(ms[i].1);
      }
    case _ =>
  }

  // ---------------------------------------------------------------------
  // Number to text (Number.prototype.toString on integral values)

  function DigitChar(d: nat): char
    requires d < 10
  {
    "0123456789"[d]
  }

  function Digits(n: nat): (s: string)
    ensures |s| > 0 && s[0] in "0123456789"
  {
    if n < 10 then [DigitChar(n)] else Digits(n / 10) + [DigitChar(n % 10)]
  }

  function Decimal(n: int): (s: string)
    ensures |s| > 0 && s[0] in "-0123456789"
  {
    if n < 0 then "-" + Digits(-n) else Digits(n)
  }

  // ---------------------------------------------------------------------
  // value.toString(), as the reviver calls it

  /**
    `String(v)` for a value the reviver has already processed: an array
    joins its elements with "," (a null element gives ""), a plain object
    prints "[object Object]", a RegExp prints "/source/flags".
  */
  function ToStr(j: Json): string
  {
    match j
    case Null => "null"
    case Bool(b) => if b then "true" else "false"
    case Num(n) => Decimal(n)
    case Str(s) => s
    case Arr(xs) => Join(xs)
    case Obj(_) => "[object Object]"
    case Regex(src, fl) => "/" + src + "/" + fl
  }

  /** Array.prototype.join(","), where a null element prints as "". */
  function Join(xs: seq<Json>): (r: string)
    ensures |xs| > 0 ==> |r| >= |xs| - 1
  {
    if xs == [] then ""
    else
      var head := if xs[0].Null? then "" else ToStr(xs[0]);
      if |xs| == 1 then head else head + "," + Join(xs[1..])
  }

  // ---------------------------------------------------------------------
  // JSON text, as JSON.stringify(value, replacer, 2) lays it out

  function HexDigit(d: nat): char
    requires d < 16
  {
    "0123456789abcdef"[d]
  }

  /** One character inside a JSON string literal. */
  function EscapeChar(c: char): string
  {
    if c == '"' then "\\\""
    else if c == '\\' then "\\\\"
    else if c == '\n' then "\\n"
    else if c == '\r' then "\\r"
    else if c == '\t' then "\\t"
    else if c == '\U{8}' then "\\b"
    else if c == '\U{C}' then "\\f"
    else if c < ' ' then "\\u00" + [HexDigit(c as int / 16), HexDigit(c as int % 16)]
    else [c]
  }

  function Quote(s: string): string
  {
    "\"" + QuoteBody(s) + "\""
  }

  function QuoteBody(s: string): string
  {
    if s == [] then "" else EscapeChar(s[0]) + QuoteBody(s[1..])
  }

  /** The strings of `parts` separated by `sep`. */
  function Interleave(parts: seq<string>, sep: string): string
  {
    if parts == [] then ""
    else if |parts| == 1 then parts[0]
    else parts[0] + sep + Interleave(parts[1..], sep)
  }

  /**
    The text of `j` at nesting indentation `indent`, with a gap of two
    spaces per level. A RegExp reaching the text (no replacer) prints `{}`.
  */
  function Render(j: Json, indent: string): (r: string)
    ensures |r| > 0
  {
    var inner := indent + "  ";
    match j
    case Null => "null"
    case Bool(b) => if b then "true" else "false"
    case Num(n) => Decimal(n)
    case Str(s) => Quote(s)
    case Regex(_, _) => "{}"
    case Arr(xs) =>
      if xs == [] then "[]"
      else
        var parts := seq(|xs|, i requires 0 <= i < |xs| => Render(xs[i], inner));
        "[\n" + inner + Interleave(parts, ",\n" + inner) + "\n" + indent + "]"
    case Obj(ms) =>
      if ms == [] then "{}"
      else
        var parts := seq(|ms|, i requires 0 <= i < |ms| => Quote(ms[i].0) + ": " + Render(ms[i].1, inner));
        "{\n" + inner + Interleave(parts, ",\n" + inner) + "\n" + indent + "}"
  }

  /** JSON text starts with a literal, a digit or minus sign, a quote or a bracket. */
  lemma RenderFirst(j: Json, indent: string)
    ensures Render(j, indent)[0] in "ntf-0123456789\"[{"
  {
    if j.Num? {
      assert Decimal(j.n)[0] in "-0123456789";
    }
  }

  /** Only a string or an array can print as text that starts with '_'. */
  lemma ToStrUnderscore(j: Json)
    ensures |ToStr(j)| > 0 && ToStr(j)[0] == '_' ==> j.Str? || j.Arr?
  {
    if j.Num? {
      assert Decimal(j.n)[0] in "-0123456789";
    }
  }

  /** A null element prints as "", and nested arrays are flattened into the same list. */
  lemma JoinExample()
    ensures ToStr(Arr([Null, Num(12), Arr([Str("a"), Null])])) == ",12,a,"
  {
    var xs := [Null, Num(12), Arr([Str("a"), Null])];
    JoinNested();
    assert xs[2..] == [Arr([Str("a"), Null])];
    assert Join(xs[1..]) == "12," + Join(xs[2..]) by {
      assert ToStr(Num(12)) == "12" by {
        assert Digits(1) == "1";
      }
    }
  }

  lemma JoinNested()
    ensures Join([Arr([Str("a"), Null])]) == "a,"
  {
    assert Join([Str("a"), Null]) == "a," by {
      assert Join([Null]) == "";
    }
  }

  /** The layout of JSON.stringify(v, null, 2): a two-space gap per level and ": " after a key. */
  lemma RenderExample()
    ensures Render(Obj([("a", Num(1))]), "") == "{\n  \"a\": 1\n}"
  {
    var ms := [("a", Num(1))];
    var parts := seq(|ms|, i requires 0 <= i < |ms| => Quote(ms[i].0) + ": " + Render(ms[i].1, "  "));
    assert parts == ["\"a\": 1"] by {
      RenderMember();
      assert parts[0] == "\"a\": 1";
    }
    assert Interleave(parts, ",\n  ") == "\"a\": 1";
    assert Render(Obj(ms), "") == "{\n" + "  " + Interleave(parts, ",\n" + "  ") + "\n" + "" + "}" by {
      assert "" + "  " == "  ";
    }
  }

  lemma RenderMember()
    ensures Quote("a") + ": " + Render(Num(1), "  ") == "\"a\": 1"
  {
    assert Decimal(1) == "1";
    assert Quote("a") == "\"a\"";
  }

  /** Nested values are indented two more spaces per level. */
  lemma RenderNestedArray()
    ensures Render(Arr([Arr([])]), "  ") == "[\n    []\n  ]"
  {
    var xs := [Arr([])];
    var parts := seq(|xs|, i requires 0 <= i < |xs| => Render(xs[i], "    "));
    assert parts == ["[]"];
    assert "  " + "  " == "    ";
  }

  /** Quotes and backslashes inside a string are escaped with a backslash. */
  lemma QuoteExample()
    ensures Render(Str("x\"\\"), "") == "\"x\\\"\\\\\""
  {
    assert QuoteBody("\\") == "\\\\";
    assert QuoteBody("\"\\") == "\\\"" + QuoteBody("\\");
    assert QuoteBody("x\"\\") == "x" + QuoteBody("\"\\");
  }
}

=== FILE: mock.dfy ===
/**
  The mock client handed out in replay mode (mongooseMock): a registry of
  model objects keyed by name, with lookup-or-define semantics.
*/
module Mock {
  import opened Wrappers
  import opened Dict
  import opened Modes

  class MongooseMock<S> {
    /** mongooseMock.models, in definition order. */
    var models: Dict<ModelObj<S>>

    ghost predicate Valid()
      reads this
    {
      Distinct(models)
    }

    constructor ()
      ensures Valid() && models == []
    {
      models := [];
    }

    /**
      model(a, b): without a schema, the model registered under `a` (None
      for `undefined`) and nothing changes; with one, a fresh model named
      `a`, instrumented for the current mode, replaces any earlier one.
    */
    method Model(a: string, b: Option<S>, theMode: Option<string>) returns (m: Option<ModelObj<S>>)
      requires Valid()
      modifies this
      ensures Valid()
      ensures b.None? ==> models == old(models) && m == Lookup(models, a)
      ensures b.Some? ==>
        && m.Some? && fresh(m.value)
        && m.value.modelName == a && m.value.schema == b.value
        && m.value.patches == ModePatches(theMode)
        && models == Put(old(models), a, m.value)
    {
      if b.None? {
        return Lookup(models, a);
      }
      var created := new ModelObj(a, b.value);
      var instrumented := InstrumentModel(created, theMode);
      PutDistinct(models, a, instrumented);
      models := Put(models, a, instrumented);
      m := Lookup(models, a);
      LookupPut(old(models), a, instrumented, a);
    }

    /** modelNames(): every registered name, each once. */
    method ModelNames() returns (names: seq<string>)
      requires Valid()
      ensures |names| == |models|
      ensures forall k :: k in names <==> Lookup(models, k).Some?
      ensures forall i, j :: 0 <= i < j < |names| ==> names[i] != names[j]
    {
      names := Keys(models);
      forall k ensures k in names <==> Lookup(models, k).Some? {
        LookupIffKey(models, k);
      }
    }
  }

  /**
    Defining a model and then asking for it by name without a schema gives
    back the same object.
  */
  method DefineThenLookup<S>(mock: MongooseMock<S>, name: string, schema: S, theMode: Option<string>)
      returns (defined: ModelObj<S>, found: Option<ModelObj<S>>)
    requires mock.Valid()
    modifies mock
    ensures mock.Valid()
    ensures found == Some(defined)
    ensures defined.modelName == name
  {
    var m := mock.Model(name, Some(schema), theMode);
    defined := m.value;
    found := mock.Model(name, None, theMode);
    LookupPut(old(mock.models), name, defined, name);
  }
}

=== FILE: modes.dfy ===
/**
  Mode selection (instrumentMongoose, instrumentModel), the shape rules of
  the patched read methods, and the model objects they patch.
*/
module Modes {
  import opened Wrappers
  import opened JsonValue
  import opened RecordStore

  /** The environment variables MONGO_RECORD_REPLAY and MONGO_RECORD_REPLAY_PATH. */
  datatype Env = Env(mode: Option<string>, path: Option<string>)

  /** A string-or-undefined is truthy when it is defined and not empty. */
  predicate Truthy(v: Option<string>)
  {
    v.Some? && v.value != ""
  }

  /** JavaScript's `a || b`. */
  function Or(a: Option<string>, b: Option<string>): Option<string>
  {
    if Truthy(a) then a else b
  }

  /** The value recordingPath starts with. */
  const InitialPath: string := "mongoose_record_replay/"
  /** The fallback instrumentMongoose writes into recordingPath. */
  const DefaultPath: string := "mongoose_record_replay"

  /**
    What instrumentMongoose hands back: an Error thrown before any patching,
    the real client with its model factory wrapped for recording, the mock
    client for replaying, or the real client untouched.
  */
  datatype Selection =
    | Invalid(mode: string)
    | RecordMode(path: string)
    | ReplayMode(path: string)
    | Passthrough

  /** `mode || process.env.MONGO_RECORD_REPLAY`: what theMode becomes. */
  function EffectiveMode(mode: Option<string>, env: Env): Option<string>
  {
    Or(mode, env.mode)
  }

  predicate Recognised(m: string)
  {
    m == "REPLAY" || m == "RECORD"
  }

  /** `path || process.env.MONGO_RECORD_REPLAY_PATH || fallback`. */
  function PathWith(path: Option<string>, env: Env, fallback: string): (p: string)
    requires fallback != ""
    ensures p != ""
    ensures Truthy(path) ==> p == path.value
    ensures !Truthy(path) && Truthy(env.path) ==> p == env.path.value
    ensures !Truthy(path) && !Truthy(env.path) ==> p == fallback
  {
    Or(Or(path, env.path), Some(fallback)).value
  }

  function SelectWith(mode: Option<string>, path: Option<string>, env: Env, fallback: string): (s: Selection)
    requires fallback != ""
    ensures s.Invalid? <==> Truthy(mode) && !Recognised(mode.value)
    ensures s.RecordMode? <==> EffectiveMode(mode, env) == Some("RECORD")
    ensures s.ReplayMode? <==> EffectiveMode(mode, env) == Some("REPLAY")
    ensures s.RecordMode? || s.ReplayMode? ==> s.path == PathWith(path, env, fallback)
  {
    var theMode := EffectiveMode(mode, env);
    if Truthy(mode) && !Recognised(mode.value) then Invalid(theMode.value)
    else if theMode == Some("RECORD") then RecordMode(PathWith(path, env, fallback))
    else if theMode == Some("REPLAY") then ReplayMode(PathWith(path, env, fallback))
    else Passthrough
  }

  /**
    instrumentMongoose's choice, as written: an explicit mode must be
    "REPLAY" or "RECORD"; an absent or empty one defers to the environment,
    whose value is not checked and, if unrecognised, leaves the client alone.
  */
  function Select(mode: Option<string>, path: Option<string>, env: Env): (s: Selection)
    ensures !Truthy(mode) ==> !s.Invalid?
    ensures !Truthy(mode) && env.mode != Some("RECORD") && env.mode != Some("REPLAY") ==> s == Passthrough
    ensures s.RecordMode? || s.ReplayMode? ==> s.path != ""
  {
    SelectWith(mode, path, env, DefaultPath)
  }

  /** The choice with the fallback path ending in '/', as recordingPath starts out. */
  function SelectIntended(mode: Option<string>, path: Option<string>, env: Env): Selection
  {
    SelectWith(mode, path, env, InitialPath)
  }

  predicate Under(file: string, dir: string)
  {
    |dir| <= |file| && file[..|dir|] == dir
  }

  /**
    With no path given, the fallback has no trailing '/', so the files land
    beside the directory "mongoose_record_replay" instead of in it.
  */
  lemma DefaultPathFilesOutsideDirectory(digest: string)
    ensures var s := Select(Some("RECORD"), None, Env(None, None));
      && s == RecordMode("mongoose_record_replay")
      && IndexFile(s.path) == "mongoose_record_replayqueries.json"
      && !Under(DataFile(s.path, digest), "mongoose_record_replay/")
  {
    var f := DataFile(DefaultPath, digest);
    assert f[|DefaultPath|] == 'd';
  }

  /** With the intended fallback every file of a recording lies in its directory. */
  lemma IntendedDefaultKeepsFilesInside(digest: string)
    ensures var s := SelectIntended(Some("RECORD"), None, Env(None, None));
      && s == RecordMode("mongoose_record_replay/")
      && Under(IndexFile(s.path), "mongoose_record_replay/")
      && Under(DataFile(s.path, digest), "mongoose_record_replay/data/")
  {
  }

  // ---------------------------------------------------------------------
  // Module-level state

  /** The globals theMode and recordingPath. */
  class Shim {
    var theMode: Option<string>
    var recordingPath: string

    constructor ()
      ensures theMode == None && recordingPath == InitialPath
    {
      theMode := None;
      recordingPath := InitialPath;
    }

    /**
      instrumentMongoose: theMode is assigned before the explicit mode is
      checked, so it keeps even a rejected value; recordingPath changes only
      in the two recognised modes.
    */
    method InstrumentMongoose(path: Option<string>, mode: Option<string>, env: Env) returns (s: Selection)
      modifies this
      ensures theMode == EffectiveMode(mode, env)
      ensures s == Select(mode, path, env)
      ensures s.RecordMode? || s.ReplayMode? ==> recordingPath == s.path
      ensures s.Invalid? || s.Passthrough? ==> recordingPath == old(recordingPath)
    {
      theMode := Or(mode, env.mode);
      if Truthy(mode) && !Recognised(mode.value) {
        return Invalid(theMode.value);
      }
      if theMode == Some("RECORD") {
        recordingPath := PathWith(path, env, DefaultPath);
        return RecordMode(recordingPath);
      } else if theMode == Some("REPLAY") {
        recordingPath := PathWith(path, env, DefaultPath);
        return ReplayMode(recordingPath);
      }
      return Passthrough;
    }
  }

  // ---------------------------------------------------------------------
  // Models and their patches

  /** A wrapper installed over a model's find, distinct and aggregate. */
  datatype Patch = RecordingPatch | ReplayingPatch

  /** A model object: its name, its schema and the wrappers installed on it, oldest first. */
  class ModelObj<S> {
    const modelName: string
    const schema: S
    var patches: seq<Patch>

    constructor (name: string, schema: S)
      ensures modelName == name && this.schema == schema && patches == []
    {
      modelName := name;
      this.schema := schema;
      patches := [];
    }
  }

  /** The wrappers instrumentModel installs under a mode. */
  function ModePatches(theMode: Option<string>): (ps: seq<Patch>)
    ensures theMode == Some("RECORD") ==> ps == [RecordingPatch]
    ensures theMode == Some("REPLAY") ==> ps == [ReplayingPatch]
    ensures theMode != Some("RECORD") && theMode != Some("REPLAY") ==> ps == []
  {
    if theMode == Some("RECORD") then [RecordingPatch]
    else if theMode == Some("REPLAY") then [ReplayingPatch]
    else []
  }

  /** instrumentModel: patch the model in place for the current mode and hand it back. */
  method InstrumentModel<S>(model: ModelObj<S>, theMode: Option<string>) returns (r: ModelObj<S>)
    modifies model
    ensures r == model
    ensures model.patches == old(model.patches) + ModePatches(theMode)
  {
    if theMode == Some("RECORD") {
      model.patches := model.patches + [RecordingPatch];
    } else if theMode == Some("REPLAY") {
      model.patches := model.patches + [ReplayingPatch];
    }
    r := model;
  }

  /**
    The wrapped model factory of record mode: a call with more than one
    argument (a definition) is instrumented, a lookup is passed through.
  */
  method DefineRecorded<S>(argCount: nat, model: ModelObj<S>, theMode: Option<string>) returns (r: ModelObj<S>)
    modifies model
    ensures r == model
    ensures argCount > 1 ==> model.patches == old(model.patches) + ModePatches(theMode)
    ensures argCount <= 1 ==> model.patches == old(model.patches)
  {
    if argCount > 1 {
      r := InstrumentModel(model, theMode);
    } else {
      r := model;
    }
  }

  // ---------------------------------------------------------------------
  // Argument shapes of the patched read methods

  datatype ShapeError = ArgumentCount(count: nat)

  /**
    The query a recording wrapper keys on: find and distinct throw unless
    called with exactly one argument; aggregate keys on the whole list.
  */
  function RecordQuery(op: Op, args: seq<Json>): (r: Result<Json, ShapeError>)
    ensures op != Aggregate ==> (r.Ok? <==> |args| == 1)
    ensures op != Aggregate && r.Ok? ==> r.value == args[0]
    ensures op != Aggregate && r.Err? ==> r.error == ArgumentCount(|args|)
    ensures op == Aggregate ==> r == Ok(Arr(args))
  {
    if op == Aggregate then Ok(Arr(args))
    else if |args| != 1 then Err(ArgumentCount(|args|))
    else Ok(args[0])
  }

  /**
    The query a replaying wrapper keys on: find and distinct take the first
    argument (`undefined` when there is none) and ignore the rest.
  */
  function ReplayQuery(op: Op, args: seq<Json>): (q: Option<Json>)
    ensures op == Aggregate ==> q == Some(Arr(args))
    ensures op != Aggregate ==> (q.None? <==> args == [])
    ensures op != Aggregate && q.Some? ==> q.value == args[0]
  {
    if op == Aggregate then Some(Arr(args))
    else if args == [] then None
    else Some(args[0])
  }

  /**
    A replayed call finds what a recorded call stored whenever it keys on
    the same query: the same first argument for find and distinct, the
    same argument list for aggregate.
  */
  lemma ReplayKeysLikeRecord(op: Op, recorded: seq<Json>, replayed: seq<Json>)
    requires RecordQuery(op, recorded).Ok?
    requires op == Aggregate ==> replayed == recorded
    requires op != Aggregate ==> replayed != [] && replayed[0] == recorded[0]
    ensures ReplayQuery(op, replayed) == Some(RecordQuery(op, recorded).value)
  {
  }
}

=== FILE: regex_codec.dfy ===
/**
  The RegExp-aware serialiser and deserialiser (JSONStringify / JSONParse):
  the replacer `customSer` and the reviver `customDeSer`, as transforms of
  the value tree. The JSON text itself only matters for the record key,
  see RecordStore.KeyText.
*/
module RegexCodec {
  import opened Wrappers
  import opened Dict
  import opened JsonValue

  /** The marker that introduces an encoded RegExp. */
  const Sentinel: string := "__REGEXP "

  predicate StartsWith(s: string, p: string)
  {
    |p| <= |s| && s[..|p|] == p
  }

  // ---------------------------------------------------------------------
  // Serialising: customSer

  /**
    JSON.stringify's view of `j` after the replacer: every RegExp, at any
    depth, becomes the string "__REGEXP " + "/" + source + "/" + flags.
  */
  function Encode(j: Json): (r: Json)
    ensures j.Regex? ==> r == Str(Sentinel + "/" + j.source + "/" + j.flags)
    ensures j.Arr? ==>
      && r.Arr? && |r.items| == |j.items|
      && forall i :: 0 <= i < |j.items| ==> r.items[i] == Encode(j.items[i])
    ensures j.Obj? ==>
      && r.Obj? && |r.members| == |j.members|
      && forall i :: 0 <= i < |j.members| ==> r.members[i] == (j.members[i].0, Encode(j.members[i].1))
    ensures RegexFree(j) ==> r == j
    ensures RegexFree(r)
  {
    match j
    case Regex(src, fl) =>
      assert Sentinel + ToStr(j) == Sentinel + "/" + src + "/" + fl;
      Str(Sentinel + ToStr(j))
    case Arr(xs) => Arr(seq(|xs|, i requires 0 <= i < |xs| => Encode(xs[i])))
    case Obj(ms) => Obj(seq(|ms|, i requires 0 <= i < |ms| => (ms[i].0, Encode(ms[i].1))))
    case _ => j
  }

  // ---------------------------------------------------------------------
  // Deserialising: customDeSer

  datatype DecodeError =
    | NullToString         // `null.toString()`
    | ToStringNotCallable  // an object whose own "toString" key hides the method
    | SplitNotCallable     // a non-string whose text starts with the marker has no `split`
    | NoMatch              // `.match(...)` gave null, so `m[1]` fails
    | InvalidFlags(flags: string)  // `new RegExp(source, flags)` rejects the flags

  /**
    How the text after the marker is cut out. `AsWritten` is
    `value.split("__REGEXP ")[1]`: the text up to the next marker.
    `PrefixOnly` drops just the leading marker.
  */
  datatype SplitRule = AsWritten | PrefixOnly

  predicate SentinelAt(t: string, k: nat)
  {
    k + |Sentinel| <= |t| && t[k..k + |Sentinel|] == Sentinel
  }

  predicate ContainsSentinel(t: string)
  {
    exists k :: 0 <= k < |t| && SentinelAt(t, k)
  }

  /** The text of `t` before the first marker in it. */
  function UpToSentinel(t: string): (r: string)
    ensures |r| <= |t| && r == t[..|r|]
  {
    if t == [] || SentinelAt(t, 0) then [] else [t[0]] + UpToSentinel(t[1..])
  }

  /**
    `split` cuts at the first marker: the text before it holds no marker,
    and the cut is at a marker or at the end.
  */
  lemma {:induction false} UpToSentinelFirst(t: string)
    ensures forall k :: 0 <= k < |UpToSentinel(t)| ==> !SentinelAt(t, k)
    ensures |UpToSentinel(t)| < |t| ==> SentinelAt(t, |UpToSentinel(t)|)
  {
    if t != [] && !SentinelAt(t, 0) {
      var u := t[1..];
      UpToSentinelFirst(u);
      forall k | 1 <= k <= |u| ensures SentinelAt(t, k) <==> SentinelAt(u, k - 1) {
        if k + |Sentinel| <= |t| {
          assert t[k..k + |Sentinel|] == u[k - 1..k - 1 + |Sentinel|];
        }
      }
    }
  }

  /** The string handed to `.match(...)`. */
  function Segment(s: string, rule: SplitRule): (r: string)
    requires StartsWith(s, Sentinel)
    ensures |r| <= |s| - |Sentinel| && r == s[|Sentinel|..][..|r|]
    ensures rule == PrefixOnly ==> Sentinel + r == s
  {
    match rule
    case AsWritten => UpToSentinel(s[|Sentinel|..])
    case PrefixOnly => s[|Sentinel|..]
  }

  /** `.` in a JavaScript regular expression matches anything but these. */
  predicate IsLineTerminator(c: char)
  {
    c == '\n' || c == '\r' || c == '\U{2028}' || c == '\U{2029}'
  }

  /** The first line terminator at or after `i`, or the end. */
  function LineEnd(t: string, i: nat): (e: nat)
    requires i <= |t|
    ensures i <= e <= |t|
    ensures forall k :: i <= k < e ==> !IsLineTerminator(t[k])
    ensures e < |t| ==> IsLineTerminator(t[e])
    decreases |t| - i
  {
    if i == |t| || IsLineTerminator(t[i]) then i else LineEnd(t, i + 1)
  }

  /** The last '/' in t[lo..hi]. */
  function LastSlash(t: string, lo: nat, hi: nat): (k: Option<nat>)
    requires lo <= hi <= |t|
    ensures k.Some? ==> lo <= k.value < hi && t[k.value] == '/'
    ensures k.Some? ==> forall m :: k.value < m < hi ==> t[m] != '/'
    ensures k.None? ==> forall m :: lo <= m < hi ==> t[m] != '/'
    decreases hi
  {
    if hi == lo then None
    else if t[hi - 1] == '/' then Some(hi - 1)
    else LastSlash(t, lo, hi - 1)
  }

  /**
    `t.match(/\/(.*)\/(.*)?/)` searched from position `p`: the leftmost '/'
    that has another '/' after it on the same line opens the match; the
    greedy first group runs to the last '/' on that line, the second group
    to the end of the line.
  */
  function MatchFrom(t: string, p: nat): (r: Option<(string, string)>)
    requires p <= |t|
    ensures r.Some? ==> NoLineTerminator(r.value.0) && NoLineTerminator(r.value.1) && '/' !in r.value.1
    ensures r.Some? ==> exists k :: p <= k && MatchedAt(t, k, r.value.0, r.value.1)
    decreases |t| - p
  {
    if p == |t| then None
    else if t[p] == '/' then
      var e := LineEnd(t, p + 1);
      match LastSlash(t, p + 1, e)
      case Some(j) =>
        assert t[p..e] == "/" + t[p + 1..j] + "/" + t[j + 1..e];
        assert MatchedAt(t, p, t[p + 1..j], t[j + 1..e]);
        Some((t[p + 1..j], t[j + 1..e]))
      case None => MatchFrom(t, p + 1)
    else MatchFrom(t, p + 1)
  }

  /**
    A '/' at `k` opens a match when another '/' follows it on its line.
  */
  predicate Opens(t: string, k: nat)
  {
    k < |t| && t[k] == '/' && LastSlash(t, k + 1, LineEnd(t, k + 1)).Some?
  }

  /**
    The groups of a match opened at `k`: group 1 runs to the last '/' on
    the line (greedy), group 2 from there to the end of the line.
  */
  function Groups(t: string, k: nat): (string, string)
    requires Opens(t, k)
  {
    var e := LineEnd(t, k + 1);
    var j := LastSlash(t, k + 1, e).value;
    (t[k + 1..j], t[j + 1..e])
  }

  /** `.match` finds nothing exactly when no '/' opens a match. */
  lemma MatchFromNullIff(t: string, p: nat)
    requires p <= |t|
    ensures MatchFrom(t, p).None? <==> forall k :: p <= k < |t| ==> !Opens(t, k)
  {
    if k :| p <= k < |t| && Opens(t, k) {
      MatchFromFound(t, p, k);
    } else {
      MatchFromNone(t, p);
    }
  }

  /** A '/' that opens a match at or after `p` makes the search succeed. */
  lemma {:induction false} MatchFromFound(t: string, p: nat, k: nat)
    requires p <= k < |t| && Opens(t, k)
    ensures MatchFrom(t, p).Some?
    decreases k - p
  {
    MatchFromStep(t, p);
    if !Opens(t, p) {
      MatchFromFound(t, p + 1, k);
    }
  }

  /** With no '/' opening a match at or after `p`, the search fails. */
  lemma {:induction false} MatchFromNone(t: string, p: nat)
    requires p <= |t|
    requires forall k :: p <= k < |t| ==> !Opens(t, k)
    ensures MatchFrom(t, p) == None
    decreases |t| - p
  {
    if p < |t| {
      MatchFromStep(t, p);
      MatchFromNone(t, p + 1);
    }
  }

  /**
    The match is the one the leftmost opening '/' gives: group 1 up to the
    last '/' on its line, group 2 from there to the end of the line.
  */
  lemma {:induction false} MatchFromFirst(t: string, p: nat, k: nat)
    requires p <= k < |t| && Opens(t, k)
    requires forall m :: p <= m < k ==> !Opens(t, m)
    ensures MatchFrom(t, p) == Some(Groups(t, k))
    decreases k - p
  {
    MatchFromStep(t, p);
    if p < k {
      MatchFromFirst(t, p + 1, k);
    }
  }

  /** One step of the search: a match opens here, or the search moves on. */
  lemma MatchFromStep(t: string, p: nat)
    requires p < |t|
    ensures MatchFrom(t, p) == if Opens(t, p) then Some(Groups(t, p)) else MatchFrom(t, p + 1)
  {
  }

  /** The text "/" + g1 + "/" + g2 occurs in `t` at `k`. */
  predicate MatchedAt(t: string, k: nat, g1: string, g2: string)
  {
    k + |g1| + |g2| + 2 <= |t| && t[k..k + |g1| + |g2| + 2] == "/" + g1 + "/" + g2
  }

  /** Every flag a RegExp can carry, in the order `RegExp.prototype.flags` lists them. */
  const FlagOrder := "dgimsuvy"

  /** The letters of `order` that occur in `f`, in the order of `order`. */
  function OrderedFlags(order: string, f: string): (r: string)
    ensures |r| <= |order|
  {
    if order == [] then []
    else (if order[0] in f then [order[0]] else []) + OrderedFlags(order[1..], f)
  }

  /**
    `RegExp.prototype.flags` of `new RegExp(source, f)`: the letters of `f`
    in the fixed order, whatever order `f` gives them in.
  */
  function CanonicalFlags(f: string): string
  {
    OrderedFlags(FlagOrder, f)
  }

  /** A letter is among the flags the RegExp reports exactly when it is a known flag given in `f`. */
  lemma CanonicalFlagsLetters(f: string)
    ensures forall c :: c in CanonicalFlags(f) <==> c in FlagOrder && c in f
  {
    OrderedFlagsLetters(FlagOrder, f);
  }

  lemma {:induction false} OrderedFlagsLetters(order: string, f: string)
    ensures forall c :: c in OrderedFlags(order, f) <==> c in order && c in f
  {
    if order != [] {
      OrderedFlagsLetters(order[1..], f);
      assert order == [order[0]] + order[1..];
    }
  }

  /** Sorting flags a second time changes nothing. */
  lemma CanonicalFlagsIdempotent(f: string)
    ensures CanonicalFlags(CanonicalFlags(f)) == CanonicalFlags(f)
  {
    CanonicalFlagsLetters(f);
    SameLettersSameFlags(FlagOrder, CanonicalFlags(f), f);
  }

  /** Only which letters occur matters, not their order or repetition. */
  lemma {:induction false} SameLettersSameFlags(order: string, f: string, g: string)
    requires forall c :: c in order ==> (c in f <==> c in g)
    ensures OrderedFlags(order, f) == OrderedFlags(order, g)
  {
    if order != [] {
      SameLettersSameFlags(order[1..], f, g);
    }
  }

  lemma FlagStep(order: string, f: string)
    requires order != []
    ensures OrderedFlags(order, f) == (if order[0] in f then [order[0]] else []) + OrderedFlags(order[1..], f)
  {
  }

  lemma {:induction false} NoLettersNoFlags(order: string, f: string)
    requires forall i :: 0 <= i < |order| ==> order[i] !in f
    ensures OrderedFlags(order, f) == []
  {
    if order != [] {
      NoLettersNoFlags(order[1..], f);
    }
  }

  /** The flags `new RegExp` accepts: known letters, each once, not both u and v. */
  predicate ValidFlags(f: string)
  {
    && (forall i :: 0 <= i < |f| ==> f[i] in "dgimsuvy")
    && (forall i, j :: 0 <= i < j < |f| ==> f[i] != f[j])
    && !('u' in f && 'v' in f)
  }

  /**
    customDeSer applied to one value whose children are already revived:
    `value.toString()` must work; a text starting with the marker is cut,
    matched and turned into a RegExp; anything else comes back as it is.
  */
  function Revive(v: Json, rule: SplitRule): (r: Result<Json, DecodeError>)
    ensures v.Null? ==> r == Err(NullToString)
    ensures v.Obj? && Lookup(v.members, "toString").Some? ==> r == Err(ToStringNotCallable)
    ensures !v.Null? && !(v.Obj? && Lookup(v.members, "toString").Some?) && !StartsWith(ToStr(v), Sentinel) ==> r == Ok(v)
    ensures r.Ok? && r.value != v ==>
      && v.Str? && StartsWith(v.s, Sentinel)
      && r.value.Regex? && CanonicalFlags(r.value.flags) == r.value.flags
  {
    if v.Null? then Err(NullToString)
    else if v.Obj? && Lookup(v.members, "toString").Some? then Err(ToStringNotCallable)
    else if !StartsWith(ToStr(v), Sentinel) then Ok(v)
    else if !v.Str? then Err(SplitNotCallable)
    else
      match MatchSlashes(Segment(v.s, rule))
      case None => Err(NoMatch)
      case Some((src, fl)) =>
        if ValidFlags(fl) then
          CanonicalFlagsIdempotent(fl);
          Ok(Regex(src, CanonicalFlags(fl)))
        else Err(InvalidFlags(fl))
  }

  function MatchSlashes(t: string): Option<(string, string)>
  {
    MatchFrom(t, 0)
  }

  /**
    JSON.parse's walk with the reviver: children first, in order, then the
    value itself; the first failure ends the parse.
  */
  function Decode(j: Json, rule: SplitRule): (r: Result<Json, DecodeError>)
    ensures HasNull(j) ==> r.Err?
  {
    match j
    case Arr(xs) =>
      (match DecodeItems(xs, rule)
       case Err(e) => Err(e)
       case Ok(ys) => Revive(Arr(ys), rule))
    case Obj(ms) =>
      (match DecodeMembers(ms, rule)
       case Err(e) => Err(e)
       case Ok(ms') => Revive(Obj(ms'), rule))
    case _ => Revive(j, rule)
  }

  function DecodeItems(xs: seq<Json>, rule: SplitRule): (r: Result<seq<Json>, DecodeError>)
    ensures r.Ok? ==> |r.value| == |xs| && forall i :: 0 <= i < |xs| ==> Decode(xs[i], rule) == Ok(r.value[i])
  {
    if xs == [] then Ok([])
    else
      match Decode(xs[0], rule)
      case Err(e) => Err(e)
      case Ok(y) =>
        match DecodeItems(xs[1..], rule)
        case Err(e) => Err(e)
        case Ok(ys) => Ok([y] + ys)
  }

  function DecodeMembers(ms: seq<(string, Json)>, rule: SplitRule): (r: Result<seq<(string, Json)>, DecodeError>)
    ensures r.Ok? ==> |r.value| == |ms| && forall i :: 0 <= i < |ms| ==> r.value[i].0 == ms[i].0
    ensures r.Ok? ==> forall i :: 0 <= i < |ms| ==> !HasNull(ms[i].1)
  {
    if ms == [] then Ok([])
    else
      var m := ms[0];
      assert m.1 < m;
      match Decode(m.1, rule)
      case Err(e) => Err(e)
      case Ok(y) =>
        match DecodeMembers(ms[1..], rule)
        case Err(e) => Err(e)
        case Ok(rest) => Ok([(m.0, y)] + rest)
  }

  /** JSONParse: the reviver exactly as the code writes it. */
  function JSONParse(j: Json): Result<Json, DecodeError>
  {
    Decode(j, AsWritten)
  }

  /** JSONParse with the marker stripped instead of split on. */
  function JSONParseIntended(j: Json): Result<Json, DecodeError>
  {
    Decode(j, PrefixOnly)
  }

  // ---------------------------------------------------------------------
  // What the reviver accepts

  predicate NoLineTerminator(s: string)
  {
    forall i :: 0 <= i < |s| ==> !IsLineTerminator(s[i])
  }

  /**
    The values that survive Encode then Decode: no null, no string that
    already starts with the marker, no object with a "toString" key, and
    RegExps whose source holds no line terminator (RegExp.prototype.source
    escapes them) and, for the code as written, no marker.
  */
  predicate Revivable(j: Json, rule: SplitRule)
  {
    match j
    case Null => false
    case Str(s) => !StartsWith(s, Sentinel)
    case Regex(src, fl) =>
      && NoLineTerminator(src) && ValidFlags(fl) && CanonicalFlags(fl) == fl
      && (rule == AsWritten ==> !ContainsSentinel(src))
    case Arr(xs) => forall i :: 0 <= i < |xs| ==> Revivable(xs[i], rule)
    case Obj(ms) => Lookup(ms, "toString").None? && forall i :: 0 <= i < |ms| ==> Revivable(ms[i].1, rule)
    case _ => true
  }

  // ---------------------------------------------------------------------
  // Scanning lemmas

  lemma {:induction false} LineEndAtEnd(t: string, i: nat)
    requires i <= |t|
    requires forall k :: i <= k < |t| ==> !IsLineTerminator(t[k])
    ensures LineEnd(t, i) == |t|
    decreases |t| - i
  {
    if i < |t| {
      LineEndAtEnd(t, i + 1);
    }
  }

  lemma {:induction false} LastSlashIs(t: string, lo: nat, hi: nat, k: nat)
    requires lo <= k < hi <= |t| && t[k] == '/'
    requires forall m :: k < m < hi ==> t[m] != '/'
    ensures LastSlash(t, lo, hi) == Some(k)
    decreases hi
  {
    if hi - 1 != k {
      LastSlashIs(t, lo, hi - 1, k);
    }
  }

  /** The greedy first group of the match stops at the slash before the flags. */
  lemma MatchEncoded(src: string, fl: string)
    requires NoLineTerminator(src) && ValidFlags(fl)
    ensures MatchSlashes("/" + src + "/" + fl) == Some((src, fl))
  {
    var t := "/" + src + "/" + fl;
    var n := |src| + 1;
    assert t[n] == '/';
    forall k | 1 <= k < |t| ensures !IsLineTerminator(t[k]) {
      if k < n {
        assert t[k] == src[k - 1];
      } else if k > n {
        assert t[k] == fl[k - n - 1];
      }
    }
    LineEndAtEnd(t, 1);
    forall m | n < m < |t| ensures t[m] != '/' {
      assert t[m] == fl[m - n - 1];
    }
    LastSlashIs(t, 1, |t|, n);
    assert t[1..n] == src;
    assert t[n + 1..|t|] == fl;
  }

  lemma {:induction false} UpToSentinelWhole(t: string)
    requires forall k :: 0 <= k < |t| ==> !SentinelAt(t, k)
    ensures UpToSentinel(t) == t
  {
    if t != [] {
      var u := t[1..];
      forall k | 0 <= k < |u| ensures !SentinelAt(u, k) {
        if SentinelAt(u, k) {
          assert u[k..k + |Sentinel|] == t[k + 1..k + 1 + |Sentinel|];
          assert SentinelAt(t, k + 1);
        }
      }
      UpToSentinelWhole(u);
    }
  }

  /**
    A marker cannot straddle the slashes of "/source/flags" nor sit in the
    flags, so one occurs there only if the source holds it.
  */
  lemma EncodedNoSentinel(src: string, fl: string)
    requires !ContainsSentinel(src) && ValidFlags(fl)
    ensures forall k :: 0 <= k < |"/" + src + "/" + fl| ==> !SentinelAt("/" + src + "/" + fl, k)
  {
    var t := "/" + src + "/" + fl;
    var n := |src| + 1;
    forall k | 0 <= k < |t| ensures !SentinelAt(t, k) {
      if k + |Sentinel| <= |t| {
        var w := t[k..k + |Sentinel|];
        if k == 0 {
          assert w[0] == '/';
        } else if k + |Sentinel| <= n {
          assert w == src[k - 1..k - 1 + |Sentinel|];
          assert !SentinelAt(src, k - 1);
        } else if k <= n {
          assert w[n - k] == '/';
        } else {
          assert w[0] == fl[k - n - 1];
        }
      }
    }
  }

  // ---------------------------------------------------------------------
  // Round trip

  /**
    The reviver turns "__REGEXP /source/flags" into the RegExp with that
    source and its flags in the fixed order.
  */
  lemma DecodeMarked(src: string, fl: string, rule: SplitRule)
    requires NoLineTerminator(src) && ValidFlags(fl)
    requires rule == AsWritten ==> !ContainsSentinel(src)
    ensures Decode(Str(Sentinel + "/" + src + "/" + fl), rule) == Ok(Regex(src, CanonicalFlags(fl)))
  {
    var t := "/" + src + "/" + fl;
    var s := Sentinel + t;
    assert Sentinel + "/" + src + "/" + fl == s;
    SegmentOfMarked(src, fl, rule);
    MatchEncoded(src, fl);
    assert ToStr(Str(s)) == s;
  }

  /** The text handed to `.match` is "/source/flags" again. */
  lemma SegmentOfMarked(src: string, fl: string, rule: SplitRule)
    requires ValidFlags(fl)
    requires rule == AsWritten ==> !ContainsSentinel(src)
    ensures StartsWith(Sentinel + ("/" + src + "/" + fl), Sentinel)
    ensures Segment(Sentinel + ("/" + src + "/" + fl), rule) == "/" + src + "/" + fl
  {
    var t := "/" + src + "/" + fl;
    var s := Sentinel + t;
    assert s[..|Sentinel|] == Sentinel;
    assert s[|Sentinel|..] == t;
    if rule == AsWritten {
      EncodedNoSentinel(src, fl);
      UpToSentinelWhole(t);
    }
  }

  /** Decoding the encoding of a RegExp gives back its source and flags. */
  lemma RegexRoundTrip(src: string, fl: string, rule: SplitRule)
    requires NoLineTerminator(src) && ValidFlags(fl) && CanonicalFlags(fl) == fl
    requires rule == AsWritten ==> !ContainsSentinel(src)
    ensures Decode(Encode(Regex(src, fl)), rule) == Ok(Regex(src, fl))
  {
    DecodeMarked(src, fl, rule);
  }

  /** JSONParseIntended restores every RegExp, whatever its source holds. */
  lemma RegexRoundTripIntended(src: string, fl: string)
    requires NoLineTerminator(src) && ValidFlags(fl) && CanonicalFlags(fl) == fl
    ensures JSONParseIntended(Encode(Regex(src, fl))) == Ok(Regex(src, fl))
  {
    RegexRoundTrip(src, fl, PrefixOnly);
  }

  /** A source holding the marker breaks the round trip of the code as written. */
  lemma SentinelInSourceBreaksRoundTrip()
    ensures JSONParse(Encode(Regex("a__REGEXP b", ""))) == Err(NoMatch)
    ensures JSONParseIntended(Encode(Regex("a__REGEXP b", ""))) == Ok(Regex("a__REGEXP b", ""))
  {
    EncodeExample();
    InnerMarkerFails("__REGEXP /a__REGEXP b/");
    ExampleSourceOneLine();
    ValidFlagsEmpty();
    RegexRoundTripIntended("a__REGEXP b", "");
  }

  lemma EncodeExample()
    ensures Encode(Regex("a__REGEXP b", "")) == Str("__REGEXP /a__REGEXP b/")
  {
    assert Sentinel + "/" + "a__REGEXP b" + "/" + "" == "__REGEXP /a__REGEXP b/";
  }

  lemma ExampleSourceOneLine()
    ensures NoLineTerminator("a__REGEXP b")
  {
  }

  lemma InnerMarkerFails(s: string)
    requires s == "__REGEXP /a__REGEXP b/"
    ensures Decode(Str(s), AsWritten) == Err(NoMatch)
  {
    assert StartsWith(s, Sentinel);
    assert s[|Sentinel|..] == "/a__REGEXP b/";
    CutAtInnerMarker();
    SlashAloneNoMatch();
  }

  lemma SlashAloneNoMatch()
    ensures MatchSlashes("/a") == None
  {
  }

  /** `split` cuts "/a__REGEXP b/" at the inner marker. */
  lemma CutAtInnerMarker()
    ensures UpToSentinel("/a__REGEXP b/") == "/a"
  {
    var t := "/a__REGEXP b/";
    assert t[0] != Sentinel[0];
    assert !SentinelAt(t, 0);
    assert t[1..][0] != Sentinel[0];
    assert !SentinelAt(t[1..], 0);
    assert t[1..][1..] == "__REGEXP b/";
    assert SentinelAt(t[1..][1..], 0);
  }

  /** `new RegExp` takes known letters, each at most once, and not u with v. */
  lemma ValidFlagsCases()
    ensures ValidFlags("") && ValidFlags("gi") && ValidFlags("dgimsuy")
    ensures !ValidFlags("gg") && !ValidFlags("uv") && !ValidFlags("x") && !ValidFlags("G")
  {
    assert "gg"[0] == "gg"[1];
    assert 'u' in "uv" && 'v' in "uv";
    assert "x"[0] !in "dgimsuvy";
    assert "G"[0] !in "dgimsuvy";
  }

  lemma ValidFlagsEmpty()
    ensures ValidFlags("")
  {
  }

  /** A value that is not null, not a marker string and not a "toString" object never prints as a marker. */
  lemma {:induction false} RevivableText(j: Json, rule: SplitRule)
    requires Revivable(j, rule)
    ensures !StartsWith(ToStr(j), Sentinel)
  {
    match j
    case Num(n) =>
      assert ToStr(j)[0] in "-0123456789";
    case Arr(xs) =>
      if xs != [] {
        RevivableText(xs[0], rule);
        var head := ToStr(xs[0]);
        if |xs| > 1 {
          CommaStopsSentinel(head, Join(xs[1..]));
        }
      }
    case _ =>
  }

  lemma CommaStopsSentinel(head: string, rest: string)
    requires !StartsWith(head, Sentinel)
    ensures !StartsWith(head + "," + rest, Sentinel)
  {
    var s := head + "," + rest;
    if |Sentinel| <= |s| {
      if |head| >= |Sentinel| {
        assert s[..|Sentinel|] == head[..|Sentinel|];
      } else {
        assert s[..|Sentinel|][|head|] == ',';
      }
    }
  }

  /**
    Every value the reviver can take back survives the round trip:
    JSON.parse(JSONStringify(j)) with the reviver gives j again.
  */
  lemma {:induction false} RoundTrip(j: Json, rule: SplitRule)
    requires Revivable(j, rule)
    ensures Decode(Encode(j), rule) == Ok(j)
    decreases j, 1
  {
    match j
    case Regex(src, fl) =>
      RegexRoundTrip(src, fl, rule);
    case Arr(xs) =>
      RoundTripArr(xs, rule);
    case Obj(ms) =>
      RoundTripObj(ms, rule);
    case Str(s) =>
      RevivableText(j, rule);
    case Num(n) =>
      RevivableText(j, rule);
    case Bool(b) =>
    case Null =>
  }

  lemma {:induction false} RoundTripArr(xs: seq<Json>, rule: SplitRule)
    requires Revivable(Arr(xs), rule)
    ensures Decode(Encode(Arr(xs)), rule) == Ok(Arr(xs))
    decreases Arr(xs), 0
  {
    var es := Encode(Arr(xs)).items;
    RoundTripItems(xs, es, rule);
    RevivableText(Arr(xs), rule);
  }

  lemma {:induction false} RoundTripObj(ms: seq<(string, Json)>, rule: SplitRule)
    requires Revivable(Obj(ms), rule)
    ensures Decode(Encode(Obj(ms)), rule) == Ok(Obj(ms))
    decreases Obj(ms), 0
  {
    var es := Encode(Obj(ms)).members;
    RoundTripMembers(ms, es, rule);
    DecodeObjRevives(es, ms, rule);
    RevivableText(Obj(ms), rule);
  }

  lemma DecodeObjRevives(es: seq<(string, Json)>, ms: seq<(string, Json)>, rule: SplitRule)
    requires DecodeMembers(es, rule) == Ok(ms)
    ensures Decode(Obj(es), rule) == Revive(Obj(ms), rule)
  {
  }

  lemma {:induction false} RoundTripItems(xs: seq<Json>, es: seq<Json>, rule: SplitRule)
    requires forall i :: 0 <= i < |xs| ==> Revivable(xs[i], rule)
    requires |es| == |xs| && forall i :: 0 <= i < |xs| ==> es[i] == Encode(xs[i])
    ensures DecodeItems(es, rule) == Ok(xs)
    decreases xs
  {
    if xs != [] {
      var x, e := xs[0], es[0];
      RoundTrip(x, rule);
      var xs', es' := xs[1..], es[1..];
      forall i | 0 <= i < |xs'| ensures Revivable(xs'[i], rule) && es'[i] == Encode(xs'[i]) {
        assert xs'[i] == xs[i + 1] && es'[i] == es[i + 1];
      }
      RoundTripItems(xs', es', rule);
      DecodeItemsCons(e, es', x, xs', rule);
      assert es == [e] + es' && xs == [x] + xs';
    }
  }

  lemma DecodeItemsCons(e: Json, es: seq<Json>, x: Json, xs: seq<Json>, rule: SplitRule)
    requires Decode(e, rule) == Ok(x) && DecodeItems(es, rule) == Ok(xs)
    ensures DecodeItems([e] + es, rule) == Ok([x] + xs)
  {
    assert ([e] + es)[1..] == es;
  }

  lemma {:induction false} RoundTripMembers(ms: seq<(string, Json)>, es: seq<(string, Json)>, rule: SplitRule)
    requires forall i :: 0 <= i < |ms| ==> Revivable(ms[i].1, rule)
    requires |es| == |ms| && forall i :: 0 <= i < |ms| ==> es[i] == (ms[i].0, Encode(ms[i].1))
    ensures DecodeMembers(es, rule) == Ok(ms)
    decreases ms
  {
    if ms != [] {
      var m, e := ms[0], es[0];
      assert m.1 < m;
      RoundTrip(m.1, rule);
      var ms', es' := ms[1..], es[1..];
      forall i | 0 <= i < |ms'| ensures Revivable(ms'[i].1, rule) && es'[i] == (ms'[i].0, Encode(ms'[i].1)) {
        assert ms'[i] == ms[i + 1] && es'[i] == es[i + 1];
      }
      RoundTripMembers(ms', es', rule);
      DecodeMembersCons(e, es', m.1, ms', rule);
      assert es == [e] + es' && ms == [(e.0, m.1)] + ms';
    }
  }

  lemma DecodeMembersCons(e: (string, Json), es: seq<(string, Json)>, y: Json, ys: seq<(string, Json)>, rule: SplitRule)
    requires Decode(e.1, rule) == Ok(y) && DecodeMembers(es, rule) == Ok(ys)
    ensures DecodeMembers([e] + es, rule) == Ok([(e.0, y)] + ys)
  {
    assert ([e] + es)[1..] == es;
  }

  /** Each member's value is revived as Decode revives it on its own. */
  lemma {:induction false} DecodeMembersValues(ms: seq<(string, Json)>, rule: SplitRule)
    requires DecodeMembers(ms, rule).Ok?
    ensures forall i :: 0 <= i < |ms| ==> Decode(ms[i].1, rule) == Ok(DecodeMembers(ms, rule).value[i].1)
  {
    if ms != [] {
      DecodeMembersValues(ms[1..], rule);
    }
  }

  // ---------------------------------------------------------------------
  // Edge cases of the reviver

  /** A string that starts with the marker never comes back as a string. */
  lemma SentinelStringNeverStaysString(s: string, rule: SplitRule)
    requires StartsWith(s, Sentinel)
    ensures Decode(Str(s), rule).Ok? ==> Decode(Str(s), rule).value.Regex?
  {
  }

  /** A plain string that was never a RegExp still turns into one. */
  lemma SentinelStringBecomesRegex()
    ensures JSONParse(Str("__REGEXP /ab+c/gi")) == Ok(Regex("ab+c", "gi"))
  {
    assert Sentinel + "/" + "ab+c" + "/" + "gi" == "__REGEXP /ab+c/gi";
    assert !ContainsSentinel("ab+c");
    assert ValidFlags("gi");
    DecodeMarked("ab+c", "gi", AsWritten);
    FlagsGi();
  }

  /**
    A marker string in which no '/' after the marker has a second '/' later
    on its line makes `.match` return null, and the parse fails.
  */
  lemma SentinelWithoutMatchFails(s: string, rule: SplitRule)
    requires StartsWith(s, Sentinel)
    requires forall k :: 0 <= k < |s[|Sentinel|..]| ==> !Opens(s[|Sentinel|..], k)
    ensures Decode(Str(s), rule) == Err(NoMatch)
  {
    var u := s[|Sentinel|..];
    var t := Segment(s, rule);
    assert t == u[..|t|];
    forall k | 0 <= k < |t| ensures !Opens(t, k) {
      if Opens(t, k) {
        OpensInLongerText(u, t, k);
      }
    }
    MatchFromNullIff(t, 0);
  }

  /** A match found in a prefix of the text is found in the whole text too. */
  lemma OpensInLongerText(u: string, t: string, k: nat)
    requires |t| <= |u| && t == u[..|t|]
    requires k < |t| && Opens(t, k)
    ensures Opens(u, k)
  {
    var et, eu := LineEnd(t, k + 1), LineEnd(u, k + 1);
    var j := LastSlash(t, k + 1, et).value;
    assert u[j] == t[j];
  }

  /** The flags come back in the fixed order, whatever order the text gives. */
  lemma FlagsComeBackInOrder()
    ensures JSONParse(Str("__REGEXP /a/ig")) == Ok(Regex("a", "gi"))
  {
    assert Sentinel + "/" + "a" + "/" + "ig" == "__REGEXP /a/ig";
    assert !ContainsSentinel("a");
    assert ValidFlags("ig");
    DecodeMarked("a", "ig", AsWritten);
    SameLettersSameFlags(FlagOrder, "ig", "gi");
    FlagsGi();
  }

  lemma FlagsGi()
    ensures CanonicalFlags("gi") == "gi"
  {
    var f := "gi";
    assert |f| == 2 && f[0] == 'g' && f[1] == 'i';
    FlagsGiFromG();
    assert 'd' !in f;
    assert FlagOrder[1..] == "gimsuvy";
    FlagStep(FlagOrder, f);
  }

  lemma FlagsGiFromG()
    ensures OrderedFlags("gimsuvy", "gi") == "gi"
  {
    var f := "gi";
    assert |f| == 2 && f[0] == 'g' && f[1] == 'i';
    FlagsGiFromI();
    assert "gimsuvy"[1..] == "imsuvy";
    FlagStep("gimsuvy", f);
  }

  lemma FlagsGiFromI()
    ensures OrderedFlags("imsuvy", "gi") == "i"
  {
    var f := "gi";
    assert |f| == 2 && f[0] == 'g' && f[1] == 'i';
    NoLettersNoFlags("msuvy", f);
    assert "imsuvy"[1..] == "msuvy";
    FlagStep("imsuvy", f);
  }

  /** Values without RegExp that the reviver accepts come back unchanged. */
  lemma PlainValuesPassThrough(j: Json, rule: SplitRule)
    requires RegexFree(j) && Revivable(j, rule)
    ensures Decode(j, rule) == Ok(j)
  {
    RoundTrip(j, rule);
  }
}

=== FILE: store.dfy ===
/**
  The record/replay store (recordOp, retrieveOp, makeFileName). The file
  system is a map from path to what a file holds; md5 is the store's
  `digestOf`, a function of the key text about which nothing is assumed.
*/
module RecordStore {
  import opened Wrappers
  import opened Dict
  import opened JsonValue
  import opened RegexCodec

  /** The three read operations that are recorded and replayed. */
  datatype Op = Find | Distinct | Aggregate

  function OpName(op: Op): string
  {
    match op
    case Find => "find"
    case Distinct => "distinct"
    case Aggregate => "aggregate"
  }

  /**
    JSONStringify(query); `None` is an `undefined` query, for which
    JSON.stringify returns undefined and the concatenation prints "undefined".
  */
  function QueryText(q: Option<Json>): (r: string)
    ensures |r| > 0
  {
    match q
    case None => "undefined"
    case Some(j) => Render(Encode(j), "")
  }

  /** No query text is "undefined" except the one an `undefined` query gives. */
  lemma QueryTextUndefined(q: Option<Json>)
    ensures QueryText(q) == "undefined" <==> q.None?
  {
    if q.Some? {
      RenderFirst(Encode(q.value), "");
      assert QueryText(q)[0] != 'u';
    }
  }

  /**
    What md5 is fed: op + name + JSONStringify(query), with no separator.
    It always starts with the operation and the model name, and the query
    always adds text after them.
  */
  function KeyText(op: Op, name: string, q: Option<Json>): (r: string)
    ensures StartsWith(r, OpName(op) + name) && |r| > |OpName(op) + name|
  {
    OpName(op) + name + QueryText(q)
  }

  /** makeFileName: where the result for a digest is kept. */
  function DataFile(path: string, digest: string): (r: string)
    ensures StartsWith(r, path + "data/") && |r| == |path| + |digest| + 10 && r[|r| - 5..] == ".json"
  {
    path + "data/" + digest + ".json"
  }

  /** The index of all recordings under a recording path. */
  function IndexFile(path: string): (r: string)
    ensures StartsWith(r, path) && |r| == |path| + 12 && r[|r| - 5..] == ".json"
  {
    path + "queries.json"
  }

  /**
    The index entry `{op, name, digest, query, res}`; JSON.stringify drops
    the "query" member when the query is `undefined`.
  */
  function Entry(op: Op, name: string, digest: string, query: Option<Json>, res: Json): (r: Json)
    ensures r.Obj? && |r.members| == if query.Some? then 5 else 4
  {
    var q := if query.Some? then [("query", query.value)] else [];
    Obj([("op", Str(OpName(op))), ("name", Str(name)), ("digest", Str(digest))] + q + [("res", res)])
  }

  /** The entry files the digest and the result, and the query exactly when there is one. */
  lemma EntryFields(op: Op, name: string, digest: string, query: Option<Json>, res: Json)
    ensures Keys(Entry(op, name, digest, query, res).members)
      == ["op", "name", "digest"] + (if query.Some? then ["query"] else []) + ["res"]
    ensures Lookup(Entry(op, name, digest, query, res).members, "digest") == Some(Str(digest))
    ensures Lookup(Entry(op, name, digest, query, res).members, "query") == query
    ensures Lookup(Entry(op, name, digest, query, res).members, "res") == Some(res)
  {
    var ms := Entry(op, name, digest, query, res).members;
    LookupFirst(ms, "digest", 2);
    LookupFirst(ms, "res", |ms| - 1);
    if query.Some? {
      LookupFirst(ms, "query", 3);
    } else {
      LookupIffKey(ms, "query");
    }
  }

  /** A file's content: JSON text (as the tree JSON.parse builds from it), or text that is not JSON. */
  datatype Stored = Parsed(value: Json) | Garbage

  datatype RecordOutcome =
    | Recorded
    | Crashed  // the index holds null or a primitive: assigning a property to it throws a TypeError
    | Exited   // the index is not JSON: readFileAsJSON calls process.exit(-1)

  datatype ReplayError =
    | Missing(file: string)  // no recording: the read fails, is logged with the file name and rethrown
    | Corrupt(file: string)  // not JSON: process.exit(-1)

  // ---------------------------------------------------------------------
  // Keys and file names

  /**
    The key text has no separator, so a name and a query can trade
    characters: ("x1", 2) and ("x", 12) give the same key.
  */
  lemma KeyCollision()
    ensures KeyText(Find, "x1", Some(Num(2))) == KeyText(Find, "x", Some(Num(12)))
  {
  }

  /**
    With the operation and the model name fixed, two queries share a key
    exactly when their serialisations are the same text.
  */
  lemma KeyTextQueries(op: Op, name: string, q1: Option<Json>, q2: Option<Json>)
    ensures KeyText(op, name, q1) == KeyText(op, name, q2) <==> QueryText(q1) == QueryText(q2)
  {
    var p := OpName(op) + name;
    if KeyText(op, name, q1) == KeyText(op, name, q2) {
      assert KeyText(op, name, q1)[|p|..] == QueryText(q1);
      assert KeyText(op, name, q2)[|p|..] == QueryText(q2);
    }
  }

  /** Different digests are kept in different files. */
  lemma DataFileInjective(path: string, d1: string, d2: string)
    requires DataFile(path, d1) == DataFile(path, d2)
    ensures d1 == d2
  {
    var p := path + "data/";
    var f := DataFile(path, d1);
    assert f == p + d1 + ".json" && f == p + d2 + ".json";
    assert |d1| == |d2|;
    assert d1 == f[|p|..|p| + |d1|];
  }

  /** The index is never one of the data files. */
  lemma IndexIsNoDataFile(path: string, d: string)
    ensures IndexFile(path) != DataFile(path, d)
  {
    assert IndexFile(path)[|path|] == 'q';
    assert DataFile(path, d)[|path|] == 'd';
  }

  /**
    Writing an entry into an index that holds no RegExp and then encoding
    the whole index encodes just the new entry.
  */
  lemma {:induction false} EncodePut(ms: seq<(string, Json)>, k: string, v: Json)
    requires RegexFree(Obj(ms))
    ensures Encode(Obj(Put(ms, k, v))) == Obj(Put(ms, k, Encode(v)))
  {
    if ms != [] {
      var m, rest := ms[0], ms[1..];
      assert ms == [m] + rest;
      assert RegexFree(m.1);
      assert RegexFree(Obj(rest)) by {
        forall i | 0 <= i < |rest| ensures RegexFree(rest[i].1) {
          assert rest[i] == ms[i + 1];
        }
      }
      if m.0 == k {
        EncodeCons((k, v), rest);
      } else {
        EncodePut(rest, k, v);
        EncodeCons(m, Put(rest, k, v));
      }
    }
  }

  /** Members are encoded one by one, in order. */
  lemma EncodeCons(m: (string, Json), rest: seq<(string, Json)>)
    ensures Encode(Obj([m] + rest)) == Obj([(m.0, Encode(m.1))] + Encode(Obj(rest)).members)
  {
    var ms := [m] + rest;
    var l := Encode(Obj(ms)).members;
    var tail := Encode(Obj(rest)).members;
    var r := [(m.0, Encode(m.1))] + tail;
    assert l == r by {
      assert |l| == |ms| == |r|;
      forall i | 0 <= i < |l| ensures l[i] == r[i] {
        assert l[i] == (ms[i].0, Encode(ms[i].1));
        if i > 0 {
          assert ms[i] == rest[i - 1];
          assert tail[i - 1] == (rest[i - 1].0, Encode(rest[i - 1].1));
        }
      }
    }
    assert Encode(Obj(ms)) == Obj(l);
  }

  // ---------------------------------------------------------------------
  // The store

  /** Every parsed file came from JSON text, so it holds no RegExp. */
  ghost predicate FromJsonText(files: map<string, Stored>)
  {
    forall p :: p in files && files[p].Parsed? ==> RegexFree(files[p].value)
  }

  lemma StoredUpdate(files: map<string, Stored>, p: string, s: Stored)
    requires FromJsonText(files)
    requires s.Parsed? ==> RegexFree(s.value)
    ensures FromJsonText(files[p := s])
  {
  }

  class Store {
    /** md5(text) as a hex string. */
    const digestOf: string -> string
    /** The files under every recording path. */
    var files: map<string, Stored>

    /** What is on disk came from JSON text, so it holds no RegExp. */
    ghost predicate Valid()
      reads this
    {
      FromJsonText(files)
    }

    constructor (digestOf: string -> string, files: map<string, Stored>)
      requires FromJsonText(files)
      ensures Valid() && this.digestOf == digestOf && this.files == files
    {
      this.digestOf := digestOf;
      this.files := files;
    }

    function Digest(op: Op, name: string, q: Option<Json>): string
    {
      digestOf(KeyText(op, name, q))
    }

    /**
      recordOp: write the result to its data file, then read the index
      (a missing one is `{}`), set the entry for the digest and write the
      index back whole.
    */
    method Record(path: string, op: Op, name: string, query: Option<Json>, res: Json) returns (outcome: RecordOutcome)
      requires Valid()
      modifies this
      ensures Valid()
      ensures var d := Digest(op, name, query);
        DataFile(path, d) in files && files[DataFile(path, d)] == Parsed(Plain(res))
      ensures var d := Digest(op, name, query);
        files - {DataFile(path, d), IndexFile(path)} == old(files) - {DataFile(path, d), IndexFile(path)}
      ensures IndexFile(path) in old(files) ==> IndexFile(path) in files
      ensures var d := Digest(op, name, query);
        IndexFile(path) !in old(files) ==>
          outcome == Recorded && IndexFile(path) in files &&
          files[IndexFile(path)] == Parsed(Obj([(d, Encode(Entry(op, name, d, query, res)))]))
      ensures var d := Digest(op, name, query); var ip := IndexFile(path);
        ip in old(files) && old(files)[ip].Parsed? && old(files)[ip].value.Obj? ==>
          outcome == Recorded &&
          files[ip] == Parsed(Obj(Put(old(files)[ip].value.members, d, Encode(Entry(op, name, d, query, res)))))
      ensures var ip := IndexFile(path);
        ip in old(files) && old(files)[ip].Parsed? && old(files)[ip].value.Arr? ==>
          outcome == Recorded && files[ip] == old(files)[ip]
      ensures var ip := IndexFile(path);
        ip in old(files) && old(files)[ip].Parsed? && !old(files)[ip].value.Obj? && !old(files)[ip].value.Arr? ==>
          outcome == Crashed && files[ip] == old(files)[ip]
      ensures var ip := IndexFile(path);
        ip in old(files) && old(files)[ip].Garbage? ==> outcome == Exited && files[ip] == old(files)[ip]
    {
      var d := Digest(op, name, query);
      var ip := IndexFile(path);
      IndexIsNoDataFile(path, d);
      StoredUpdate(files, DataFile(path, d), Parsed(Plain(res)));
      files := files[DataFile(path, d) := Parsed(Plain(res))];
      var known: seq<(string, Json)>;
      if ip !in files {
        known := [];
      } else {
        match files[ip]
        case Garbage =>
          outcome := Exited;
          return;
        case Parsed(v) =>
          if v.Obj? {
            known := v.members;
          } else if v.Arr? {
            // the entry becomes a property of the array, which JSON.stringify drops
            files := files[ip := Parsed(Encode(v))];
            outcome := Recorded;
            return;
          } else {
            outcome := Crashed;
            return;
          }
      }
      var entry := Entry(op, name, d, query, res);
      EncodePut(known, d, entry);
      StoredUpdate(files, ip, Parsed(Encode(Obj(Put(known, d, entry)))));
      files := files[ip := Parsed(Encode(Obj(Put(known, d, entry))))];
      outcome := Recorded;
    }

    /**
      retrieveOp: read the data file for the digest of (op, name, query);
      a missing file is an error that names the file.
    */
    method Retrieve(path: string, op: Op, name: string, query: Option<Json>) returns (r: Result<Json, ReplayError>)
      ensures var f := DataFile(path, Digest(op, name, query));
        && (f !in files ==> r == Err(Missing(f)))
        && (f in files && files[f].Garbage? ==> r == Err(Corrupt(f)))
        && (f in files && files[f].Parsed? ==> r == Ok(files[f].value))
    {
      var f := DataFile(path, Digest(op, name, query));
      if f !in files {
        r := Err(Missing(f));
      } else if files[f].Garbage? {
        r := Err(Corrupt(f));
      } else {
        r := Ok(files[f].value);
      }
    }
  }

  /**
    Replaying a call with the same operation, model name and query returns
    what was recorded, as plain JSON.stringify/JSON.parse give it back,
    whatever became of the index.
  */
  method ReplayReturnsRecorded(store: Store, path: string, op: Op, name: string, query: Option<Json>, res: Json)
      returns (r: Result<Json, ReplayError>)
    requires store.Valid()
    modifies store
    ensures store.Valid()
    ensures r == Ok(Plain(res))
    ensures RegexFree(res) ==> r == Ok(res)
  {
    var _ := store.Record(path, op, name, query, res);
    r := store.Retrieve(path, op, name, query);
    if RegexFree(res) {
      PlainKeepsRegexFree(res);
    }
  }
}

=== FILE: wrappers.dfy ===
/** Option and Result, the failure-carrying values used throughout the model. */
module Wrappers {

  datatype Option<+T> = None | Some(value: T)

  datatype Result<+R, +E> = Ok(value: R) | Err(error: E)
}
